=== FILE: README.md ===
# OBS stream controller — a Dafny model

This project models `OBSController` of `obs_live.py`, a small client for the
obs-websocket v5 remote-control protocol of OBS Studio, and the connect / action /
disconnect flow of its `main`. Every operation is a pure function over immutable
values:

- **Handshake** (`Handshake`): the server's Hello (op 0) is read, an Identify (op 1)
  is built — with the challenge-response token when the Hello's `d` holds
  `authentication` — and sent, and `connect()` reports `true` only when the next
  message has `op == 2`. Every exception becomes `false`.
- **Token** (`Auth`): `B64(SHA256(UTF8(B64(SHA256(UTF8(password + salt))) + challenge)))`,
  with SHA-256 (FIPS 180-4), Base64 (section 4 of RFC 4648) and UTF-8 left
  uninterpreted: they are fields of a `Primitives` value, so every statement holds
  for any such functions.
- **Requests** (`Commands`): StartStream / StopStream / GetStreamStatus each send one
  op-6 envelope with a fixed requestType/requestId pair and read exactly one reply.
  Only `d.requestStatus.result` decides the outcome; the reply's `op` and echoed
  `requestId` are never examined.
- **Scheduler** (`Clock`, `Scheduler`): `"%H:%M"` is parsed as `datetime.strptime`
  does; the target is today at HH:MM:00 when that is strictly after `now`, and
  tomorrow otherwise; the routine waits, starts the stream, and stops it after
  `duration*60` seconds only when the duration is truthy.
- **Session** (`Transport`, `Session`): the websocket is a scripted list of frames
  the server will send (`inbox`) and a trace of what the controller did (sends,
  receives, sleeps, close). `main` connects, and only when ready runs the action
  and then, in `finally`, disconnects.

Received messages are decoded JSON values (`Json.Json`) read with Python's
semantics: `v[key]` raises unless `v` is an object holding `key`, `key in v` is
key membership, substring or element test (and raises on scalars), and conditions
use Python truthiness. Raised exceptions are one untyped `Raise`, as the code
catches them without distinguishing kinds. Sent messages are typed envelopes
(`Envelopes.Identify`, `Envelopes.Request`) with their JSON encodings.

Some things the code never does, which the model therefore does not do either:

- The echoed `requestId` and the reply's `op` are never checked (`Commands.OutcomeIgnoresCorrelation`).
- There are no typed errors: every failure is printed, and the call returns `False` or nothing.
- A socket opened by a failed handshake is never closed, since `main` disconnects only after `connect()` returned `True` (`Session.RunMain`, `Session.FailedSession`).
- A command issued without an open socket raises only because `self.websocket` is `None` or closed (`Commands.Issue`).
- No receive has a timeout.

## Model

| member | source | states |
|---|---|---|
| Envelopes.EncodeIdentify | obs_live.py:59-82 | the Identify on the wire is an object with exactly the keys `op` and `d`; `op` is 1; `d` holds exactly `rpcVersion`, equal to the envelope's version, plus `authentication` exactly when a token is carried |
| Envelopes.IdentifyRoundTrip | obs_live.py:59-82 | a server decoding the sent Identify recovers exactly the version and token the client built |
| Envelopes.EncodeRequest | obs_live.py:94-100 | a request on the wire is an object with exactly the keys `op` and `d`; `op` is 6, and `d` holds exactly its requestType and requestId |
| Envelopes.RequestRoundTrip | obs_live.py:94-100 | a server decoding a sent request recovers exactly its requestType and requestId |
| Auth.TokenOverBytes | obs_live.py:74-80 | when the text encoding maps string concatenation to byte concatenation, as UTF-8 does, the token is `B64(SHA256(UTF8(B64(SHA256(UTF8(password) ++ UTF8(salt)))) ++ UTF8(challenge)))`: the second hash is over the Base64 text of the first digest, not the raw digest |
| Auth.TokenDependsOnlyOnSecret | obs_live.py:74-80 | the token depends on password and salt only through the salted secret |
| Transport.Send | obs_live.py:90 | a send appends exactly that message to the trace, as the next send and the next action, and leaves the inbox alone |
| Transport.Recv | obs_live.py:31-32 | a receive consumes exactly the next frame and yields its JSON value, raises on a closed peer or on text that is not JSON, and neither sends nor waits |
| Transport.Sleep | obs_live.py:175 | a wait appends exactly one delay, as the next action, and sends nothing |
| Transport.Disconnect | obs_live.py:192-196 | disconnect does nothing when no socket was opened, and closes an open socket with exactly one Close event |
| Transport.DisconnectIdempotent | obs_live.py:192-196 | a second disconnect changes nothing |
| Handshake.BuildIdentify | obs_live.py:57-90 | an Identify is built only from a Hello that has `d` and whose `d` accepts the `in` test; it has rpcVersion 1; it carries a token exactly when the Hello's `d` contains `authentication` and the password is truthy; the token is `AuthToken` of the Hello's own challenge and salt; authentication demanded without a password raises |
| Handshake.BuildIdentifySucceeds | obs_live.py:67-82 | a Hello with string challenge and salt and a truthy password always yields the Identify with the token |
| Handshake.NoChallengeNoToken | obs_live.py:66-90 | a Hello whose `d` lacks `authentication` yields an Identify without a token, whatever the password |
| Handshake.Connect | obs_live.py:23-55 | an unreachable server gives `false` and no change; a ready session consumed exactly Hello and acknowledgement, and sent in between exactly one message, `EncodeIdentify(BuildIdentify(hello, password))` of that Hello; the acknowledgement has `op` 2; a connect only receives and sends Identify envelopes, and sends at most one message whatever the outcome |
| Handshake.Answer | obs_live.py:35-47 | after the Hello, a ready outcome sent exactly the Identify built from that Hello and password, then consumed exactly one frame, which is JSON with `op` 2; every message it sends, ready or not, is that Identify, and it sends at most one |
| Handshake.ConnectSendsOnlyIdentify | obs_live.py:23-55 | whatever the outcome, every message `connect()` sends is the encoded Identify built from the first frame received and the password |
| Handshake.ConnectReadyIff | obs_live.py:23-55 | `connect()` is `true` if and only if the server is reachable, the Hello is JSON an Identify can be built from, and the next frame is JSON whose `op` is 2; the Hello's `op` is not examined |
| Handshake.NoPasswordNoIdentify | obs_live.py:84-90 | authentication demanded with a None or empty password: `connect()` is `false` and nothing is sent, because the raise precedes the send |
| Handshake.ChallengeScenario | obs_live.py:23-82 | challenge "c1", salt "s1", password "pw" and an op-2 reply: ready, with the single Identify carrying `B64(SHA256(UTF8(B64(SHA256(UTF8("pws1"))) + "c1")))` |
| Commands.RequestsOnTheWire | obs_live.py:92-138 | each command's request is op 6 with its fixed pair: StartStream/start-stream, StopStream/stop-stream, GetStreamStatus/get-stream-status |
| Commands.Interpret | obs_live.py:104-153 | an outcome exists only when `d.requestStatus.result` exists, and only that field decides success: a truthy result (of any type) gives Done for start/stop, and for status NotStreaming when `outputActive` is falsy or Streaming with `outputDuration` and `outputBytes` when it is truthy; a falsy result with a comment gives the refusal carrying that comment; no other field is consulted |
| Commands.Issue | obs_live.py:102-104 | without an open socket nothing is sent and the call raises; otherwise exactly the command's request is sent and then exactly one frame read, in that order, and the outcome is that frame's interpretation (a raise when there is none or it is not JSON) |
| Commands.OutcomeIgnoresCorrelation | obs_live.py:104-153 | replacing a reply's `op` or its echoed `requestId` never changes a command's outcome |
| Commands.WellFormedReply | obs_live.py:104-153 | for every well-formed reply, whatever its `op` and ids: success gives Done or the status snapshot, failure gives the exact comment, and a failure without a comment raises |
| Clock.ParseClock | obs_live.py:159 | a parsed time has hour in 0..23 and minute in 0..59 |
| Clock.ParseClockDenotes | obs_live.py:159 | the parser accepts exactly the strings made of a 1-2 digit hour up to 23, a colon and a 1-2 digit minute up to 59, and returns their values |
| Clock.ParseClockSound | obs_live.py:159 | every accepted string is an hour field up to 23, a colon and a minute field up to 59, with the returned values |
| Clock.ParseClockComplete | obs_live.py:159 | every such string is accepted, with its values |
| Clock.FormatParses | obs_live.py:159 | every zero-padded "HH:MM" time of day parses back to itself |
| Clock.NextOccurrence | obs_live.py:159-169 | the day offset is 0 or 1, and 1 exactly when HH*3600+MM*60 is at most `now` (equal means tomorrow); the wait is in (0, 86400], and `now + wait` is that time of day on that day |
| Clock.FirstMatchingInstant | obs_live.py:165-169 | the wait reaches the first instant strictly after `now` whose time of day is HH:MM:00; no shorter positive wait does |
| Clock.MorningExamples | obs_live.py:159-169 | "08:30" at 09:00 fires the next day, and at 07:00 fires the same day; "25:99" is rejected |
| Scheduler.ScheduleStream | obs_live.py:155-190 | an unparsable time changes nothing; otherwise the sends and waits are, in order, the wait to `NextOccurrence`, StartStream, and, exactly when the start did not raise and the duration is truthy, a wait of `duration*60` seconds and StopStream; requests go out only on an open socket, and the start's outcome is the interpretation of the next frame |
| Scheduler.ScheduleOnOpenSocket | obs_live.py:155-190 | on an open socket with a parsable time: the sent requests are StartStream, then StopStream exactly when the start's reply did not raise and the duration is truthy, and every send and wait appears in the order wait, start, wait, stop |
| Scheduler.StartThenStop | obs_live.py:178-186 | StartStream goes first; StopStream is sent exactly when the start did not raise and the duration is truthy (a refused start still stops), preceded by exactly one wait of `duration*60` seconds that comes after the start; the stop's outcome is the interpretation of the frame after the start's |
| Scheduler.ThenStop | obs_live.py:182-186 | after a start that did not raise, the actions are exactly StartStream, the wait of `minutes*60` seconds and StopStream, in that order |
| Scheduler.StopAfter | obs_live.py:182-186 | one wait of `minutes*60` seconds first, then exactly one StopStream request whose outcome is the next frame's interpretation |
| Session.Perform | obs_live.py:218-229 | a direct action on an open socket sends its one request and performs no other send and no wait; a schedule without a usable time, or with one that does not parse, changes nothing; a schedule with a parsable time on an open socket sends StartStream and perhaps StopStream and performs exactly the waits and sends of `ScheduledActions`, in order; only a direct command can raise |
| Session.RunMain | obs_live.py:215-231 | `main` is ready exactly when `connect()` is; a session that was not ready is left exactly as `connect()` left it; a ready one extends the handshake and ends with the socket closed and the close as its last event |
| Session.FailedSession | obs_live.py:215-217 | a session whose `connect()` returned false does not raise, sends no request and never closes its socket |
| Session.SessionOpening | obs_live.py:215-217 | a ready session opens with the Hello received, the Identify built from that Hello and the password sent, and the op-2 reply received, in that order |
| Session.DirectSession | obs_live.py:215-231 | a ready session with `start`, `stop` or `status` sends exactly the Identify and that command's request, whether or not the command raised, and never waits |
| Session.ScheduledSession | obs_live.py:215-231 | a ready `schedule` session with a non-empty `--time`: an unparsable time only adds the close; a parsable one sends the Identify, StartStream and perhaps StopStream, with the waits and sends in the order of `ScheduledActions` on the replies after the handshake |
| Session.ScheduleWithoutTime | obs_live.py:225-231 | `schedule` without `--time` connects and then only disconnects |
| Session.SessionAfterReady | obs_live.py:217-231 | after a ready connect, `main` raises exactly when the direct command raised |
| Session.Finish | obs_live.py:217-231 | after a ready connect, the action runs and the socket is then closed whatever happened, with the close as the last event; a direct action adds exactly its one request and no wait; a schedule without a usable time, or with one that does not parse, adds only the close |
| Session.StartSession | obs_live.py:215-231 | a `start` session whose handshake succeeds and whose next reply reports success, whatever its `op` and ids, does not raise and sends exactly the Identify and the StartStream request |

## Left out

- The `websockets` transport, URI construction from host and port, and JSON text: the socket is a scripted inbox plus an event trace. `reachable` stands for whether `websockets.connect` succeeds. A send always succeeds. Receiving from an empty inbox raises, as a closed connection does.
- JSON numbers with a fraction, and the Python equality `2.0 == 2`: only integer numbers are modelled.
- UTF-8 encoding errors on strings with lone surrogates: Dafny strings hold only Unicode scalar values.
- SHA-256 and Base64 internals are uninterpreted. No collision or injectivity property is claimed.
- The wall clock is one integer `now` in seconds since midnight. Sub-second precision, time zones and DST are left out. So is the race between the separate `datetime.now()` calls at lines 160-169 across midnight.
- `strptime` also accepts non-ASCII Unicode digits; the parser accepts ASCII digits only.
- The exception kinds `ConnectionRefusedError`, `ValueError` and others are one `Raise`. Each handler only prints, so the messages are left out, including the "Invalid time format" printed when a StartStream reply is not JSON.
- `asyncio.CancelledError` and `KeyboardInterrupt` are not modelled. They are not subclasses of `Exception`, so no handler would catch them.
- All printing, the argparse command line (obs_live.py:198-213), and the printed formatting of outcomes: outcomes are returned as `Commands.Report` values.
- `obs-auto.py`: it only registers a weekly `schedule`-library recurrence and polls every 30 seconds. Its `start_stream` repeats the connect / start / finally-disconnect pattern that `Session.RunMain` covers with the `Start` action.
- A second `close()` on an already closed websocket is recorded as no event, since it does nothing on the wire.
- Session.Finish: states the sends and waits of a schedule with a parsable time only through `Session.Perform` and `Session.ScheduledSession`, which say it for the whole session, to keep each proof small.

=== FILE: auth.dfy ===
/**
  The obs-websocket v5 challenge-response token.

  SHA-256 (FIPS 180-4), standard Base64 (section 4 of RFC 4648) and UTF-8 encoding are
  library calls in the controller; here they are the fields of a `Primitives` value, so
  every statement below holds for whichever functions those are.
 */
module Auth {

  type Byte = bv8

  datatype Primitives = Primitives(
    sha256: seq<Byte> -> seq<Byte>,    // hashlib.sha256(...).digest()
    b64encode: seq<Byte> -> string,    // base64.b64encode(...).decode()
    utf8: string -> seq<Byte>)         // str.encode()

  /**
    The salted secret: the Base64 text of the SHA-256 digest of password followed by salt.
    An obs-websocket server that has a password configured stores only this value.
   */
  function Secret(p: Primitives, password: string, salt: string): string {
    p.b64encode(p.sha256(p.utf8(password + salt)))
  }

  /**
    The token the controller puts into Identify: the Base64 text of the first digest is
    concatenated, as a string, with the challenge, then encoded and hashed again.
   */
  function AuthToken(p: Primitives, password: string, salt: string, challenge: string): string {
    p.b64encode(p.sha256(p.utf8(Secret(p, password, salt) + challenge)))
  }

  /**
    Over bytes, when the text encoding maps concatenation to concatenation (as UTF-8
    does): the first digest is taken over the encoded password followed by the encoded
    salt, and the second over the encoded Base64 text of that digest followed by the
    encoded challenge. The second hash input is the Base64 text, never the raw digest.
   */
  lemma TokenOverBytes(p: Primitives, password: string, salt: string, challenge: string)
    requires forall a: string, b: string :: p.utf8(a + b) == p.utf8(a) + p.utf8(b)
    ensures AuthToken(p, password, salt, challenge)
         == p.b64encode(p.sha256(p.utf8(p.b64encode(p.sha256(p.utf8(password) + p.utf8(salt))))
                                 + p.utf8(challenge)))
  {
    var secret := p.b64encode(p.sha256(p.utf8(password) + p.utf8(salt)));
    assert p.utf8(password + salt) == p.utf8(password) + p.utf8(salt);
    assert Secret(p, password, salt) == secret;
    assert p.utf8(secret + challenge) == p.utf8(secret) + p.utf8(challenge);
  }

  /**
    The token depends on the password and salt only through the stored secret: two
    passwords that yield the same secret yield the same token for every challenge.
   */
  lemma TokenDependsOnlyOnSecret(p: Primitives, pw1: string, pw2: string, salt: string, challenge: string)
    requires Secret(p, pw1, salt) == Secret(p, pw2, salt)
    ensures AuthToken(p, pw1, salt, challenge) == AuthToken(p, pw2, salt, challenge)
  {
  }
}

=== FILE: clock.dfy ===
/**
  The clock arithmetic of `schedule_stream`: parsing an "HH:MM" string the way
  `datetime.strptime(s, "%H:%M")` does, and placing it at its next occurrence after
  `now`, which is a whole number of seconds since local midnight.
 */
module Clock {
  import opened Json

  const DaySeconds := 86400

  predicate IsDigit(c: char) {
    '0' <= c <= '9'
  }

  function DigitValue(c: char): nat
    requires IsDigit(c)
  {
    (c as int) - ('0' as int)
  }

  predicate AllDigits(t: string) {
    forall i :: 0 <= i < |t| ==> IsDigit(t[i])
  }

  /** The decimal value of a string of digits. */
  function Number(t: string): nat
    requires AllDigits(t)
    decreases |t|
  {
    if t == [] then 0 else Number(t[..|t| - 1]) * 10 + DigitValue(t[|t| - 1])
  }

  /** A field of one or two ASCII digits whose value is at most `max`. */
  predicate Field(t: string, max: nat) {
    1 <= |t| <= 2 && AllDigits(t) && Number(t) <= max
  }

  /**
    `s` is an hour field, a colon and a minute field, nothing more, denoting `h`:`m`.
    This is the reading the parser must agree with.
   */
  ghost predicate Denotes(s: string, h: int, m: int) {
    exists i :: 0 < i < |s| && s[i] == ':' && Field(s[..i], 23) && Field(s[i + 1..], 59)
                && Number(s[..i]) == h && Number(s[i + 1..]) == m
  }

  /** The two-digit alternatives of `%H` (`2[0-3]|[0-1]\d`). */
  predicate TwoDigitHour(a: char, b: char) {
    (a == '2' && '0' <= b <= '3') || ('0' <= a <= '1' && IsDigit(b))
  }

  /** The two-digit alternative of `%M` (`[0-5]\d`). */
  predicate TwoDigitMinute(a: char, b: char) {
    '0' <= a <= '5' && IsDigit(b)
  }

  /**
    The minutes after the colon: the regex prefers two digits, falls back to one, and
    strptime then rejects any text left over ("unconverted data remains").
   */
  function ParseMinutes(hour: string, rest: string): (r: Option<(int, int)>)
    requires AllDigits(hour)
    ensures r.Some? ==> r.value.0 == Number(hour) && 0 <= r.value.1 <= 59
  {
    var len := if |rest| >= 2 && TwoDigitMinute(rest[0], rest[1]) then 2
               else if |rest| >= 1 && IsDigit(rest[0]) then 1
               else 0;
    if len == 0 || len != |rest| then None
    else
      ShortNumber(rest);
      Some((Number(hour), Number(rest)))
  }

  /**
    `datetime.strptime(s, "%H:%M")` reduced to (hour, minute); `None` is its ValueError.
    The hour prefers its two-digit alternatives; after a two-digit hour the colon must
    follow, or the match backtracks to a one-digit hour.
   */
  function ParseClock(s: string): (r: Option<(int, int)>)
    ensures r.Some? ==> 0 <= r.value.0 <= 23 && 0 <= r.value.1 <= 59
  {
    if |s| >= 3 && TwoDigitHour(s[0], s[1]) && s[2] == ':' then
      TwoDigitValue(s[..2]);
      ParseMinutes(s[..2], s[3..])
    else if |s| >= 2 && IsDigit(s[0]) && s[1] == ':' then
      ShortNumber(s[..1]);
      ParseMinutes(s[..1], s[2..])
    else None
  }

  /** The value of a one- or two-digit field, digit by digit. */
  lemma ShortNumber(t: string)
    requires 1 <= |t| <= 2 && AllDigits(t)
    ensures |t| == 1 ==> Number(t) == DigitValue(t[0])
    ensures |t| == 2 ==> Number(t) == DigitValue(t[0]) * 10 + DigitValue(t[1])
  {
    if |t| == 1 {
      assert t[..0] == [];
    } else {
      TwoDigitValue(t);
    }
  }

  lemma TwoDigitValue(t: string)
    requires |t| == 2 && AllDigits(t)
    ensures Number(t) == DigitValue(t[0]) * 10 + DigitValue(t[1])
  {
    assert t[..1][..0] == [] && t[..1][0] == t[0];
    assert Number(t[..1]) == DigitValue(t[0]);
  }

  /** The parser accepts exactly the strings that denote a time of day, with that value. */
  lemma ParseClockDenotes(s: string, h: int, m: int)
    ensures ParseClock(s) == Some((h, m)) <==> Denotes(s, h, m)
  {
    if ParseClock(s) == Some((h, m)) {
      ParseClockSound(s, h, m);
    }
    if Denotes(s, h, m) {
      ParseClockComplete(s, h, m);
    }
  }

  lemma ParseClockSound(s: string, h: int, m: int)
    requires ParseClock(s) == Some((h, m))
    ensures Denotes(s, h, m)
  {
    var i := if |s| >= 3 && TwoDigitHour(s[0], s[1]) && s[2] == ':' then 2 else 1;
    var rest := s[i + 1..];
    ShortNumber(s[..i]);
    ShortNumber(rest);
    assert Field(s[..i], 23) && Field(rest, 59);
  }

  lemma ParseClockComplete(s: string, h: int, m: int)
    requires Denotes(s, h, m)
    ensures ParseClock(s) == Some((h, m))
  {
    var i :| 0 < i < |s| && s[i] == ':' && Field(s[..i], 23) && Field(s[i + 1..], 59)
             && Number(s[..i]) == h && Number(s[i + 1..]) == m;
    var hour := s[..i];
    var rest := s[i + 1..];
    assert IsDigit(hour[0]) && s[0] == hour[0];
    ShortNumber(hour);
    ShortNumber(rest);
    if i == 2 {
      assert IsDigit(hour[1]) && s[1] == hour[1];
      assert TwoDigitHour(s[0], s[1]);
    }
    assert IsDigit(rest[0]);
    assert ParseMinutes(hour, rest) == Some((h, m));
  }

  /** Two-digit zero-padded rendering, as `strftime("%H")` and `strftime("%M")` write it. */
  function Pad2(n: nat): string
    requires n < 100
  {
    [(('0' as int) + n / 10) as char, (('0' as int) + n % 10) as char]
  }

  /** Every time of day written as "HH:MM" parses back to itself. */
  lemma FormatParses(h: nat, m: nat)
    requires h < 24 && m < 60
    ensures ParseClock(Pad2(h) + ":" + Pad2(m)) == Some((h, m))
  {
    var s := Pad2(h) + ":" + Pad2(m);
    assert s[..2] == Pad2(h) && s[3..] == Pad2(m);
    TwoDigitValue(Pad2(h));
    TwoDigitValue(Pad2(m));
  }

  /** When the scheduled instant falls, relative to today's midnight. */
  datatype Occurrence = Occurrence(dayOffset: nat, wait: int)

  /** Seconds since midnight of h:m:00. */
  function TimeOfDay(h: int, m: int): int {
    h * 3600 + m * 60
  }

  /**
    Today at h:m:00 if that is strictly after `now`, otherwise the same time tomorrow:
    an instant equal to `now` counts as passed.
   */
  function NextOccurrence(now: int, h: int, m: int): (o: Occurrence)
    requires 0 <= now < DaySeconds && 0 <= h <= 23 && 0 <= m <= 59
    ensures o.dayOffset == (if TimeOfDay(h, m) <= now then 1 else 0)
    ensures 0 < o.wait <= DaySeconds
    ensures now + o.wait == TimeOfDay(h, m) + o.dayOffset * DaySeconds
  {
    var target := TimeOfDay(h, m);
    if target <= now then Occurrence(1, target + DaySeconds - now) else Occurrence(0, target - now)
  }

  /**
    The wait reaches the first instant after `now` whose time of day is h:m:00: that
    instant has the right time of day, and no earlier positive wait does.
   */
  lemma FirstMatchingInstant(now: int, h: int, m: int, w: int)
    requires 0 <= now < DaySeconds && 0 <= h <= 23 && 0 <= m <= 59
    ensures (now + NextOccurrence(now, h, m).wait) % DaySeconds == TimeOfDay(h, m)
    ensures 0 < w < NextOccurrence(now, h, m).wait ==> (now + w) % DaySeconds != TimeOfDay(h, m)
  {
    var o := NextOccurrence(now, h, m);
    var target := TimeOfDay(h, m);
    assert 0 <= target < DaySeconds;
    if o.dayOffset == 1 {
      assert (now + o.wait) == target + DaySeconds;
    }
    if 0 < w < o.wait {
      var t := now + w;
      if t < DaySeconds {
        assert t % DaySeconds == t;
      } else {
        assert t - DaySeconds < target;
        assert t % DaySeconds == t - DaySeconds;
      }
    }
  }

  /** "08:30" asked at 09:00 fires tomorrow; asked at 07:00 it fires today. */
  lemma MorningExamples()
    ensures ParseClock("08:30") == Some((8, 30))
    ensures NextOccurrence(9 * 3600, 8, 30) == Occurrence(1, 23 * 3600 + 30 * 60)
    ensures NextOccurrence(7 * 3600, 8, 30) == Occurrence(0, 90 * 60)
    ensures ParseClock("25:99") == None
  {
    assert "08:30"[..2] == "08" && "08:30"[3..] == "30";
    TwoDigitValue("08");
    TwoDigitValue("30");
  }
}

=== FILE: commands.dfy ===
/**
  `start_streaming`, `stop_streaming` and `get_stream_status`: one op-6 request with a
  fixed requestType/requestId pair, then exactly one reply, read as raw JSON.

  The reply's `op` and echoed `requestId` are never looked at; only
  `d.requestStatus.result` decides the outcome. The controller prints its outcome; here
  it is returned as a `Report`.
 */
module Commands {
  import opened Json
  import opened Envelopes
  import opened Transport

  datatype Command = StartStream | StopStream | GetStreamStatus

  /** The fixed request each command sends. */
  function RequestOf(c: Command): Request {
    match c
    case StartStream => Request("StartStream", "start-stream")
    case StopStream => Request("StopStream", "stop-stream")
    case GetStreamStatus => Request("GetStreamStatus", "get-stream-status")
  }

  /**
    What a server reads from each command's request: an op-6 envelope with that
    command's fixed requestType and requestId, and nothing else.
   */
  lemma RequestsOnTheWire(c: Command)
    ensures Index(EncodeRequest(RequestOf(c)), "op") == Ok(Int(OpRequest))
    ensures DecodeRequest(EncodeRequest(RequestOf(StartStream))) == Some(Request("StartStream", "start-stream"))
    ensures DecodeRequest(EncodeRequest(RequestOf(StopStream))) == Some(Request("StopStream", "stop-stream"))
    ensures DecodeRequest(EncodeRequest(RequestOf(GetStreamStatus))) ==
              Some(Request("GetStreamStatus", "get-stream-status"))
  {
    RequestRoundTrip(RequestOf(StartStream));
    RequestRoundTrip(RequestOf(StopStream));
    RequestRoundTrip(RequestOf(GetStreamStatus));
  }

  /** What the controller reports about one reply. */
  datatype Report =
    | Done                                  // start/stop succeeded
    | Refused(comment: Json)                // requestStatus.result was false
    | Streaming(duration: Json, bytes: Json) // status: outputActive is true
    | NotStreaming                          // status: outputActive is false

  const ResultPath: seq<string> := ["d", "requestStatus", "result"]
  const CommentPath: seq<string> := ["d", "requestStatus", "comment"]
  const ActivePath: seq<string> := ["d", "responseData", "outputActive"]
  const DurationPath: seq<string> := ["d", "responseData", "outputDuration"]
  const BytesPath: seq<string> := ["d", "responseData", "outputBytes"]

  /**
    How one command reads its reply, raising (KeyError/TypeError) where a field it
    subscripts is absent.
   */
  function Interpret(c: Command, reply: Json): (r: Eval<Report>)
    ensures r.Ok? ==> Path(reply, ResultPath).Ok?
    ensures r.Ok? ==> (r.value.Refused? <==> !Truthy(Path(reply, ResultPath).value))
    ensures r.Ok? && r.value.Refused? ==> Path(reply, CommentPath) == Ok(r.value.comment)
    ensures r.Ok? && c != GetStreamStatus ==> r.value.Done? || r.value.Refused?
    ensures r.Ok? && c == GetStreamStatus ==> !r.value.Done?
    ensures r.Ok? && r.value.Streaming? ==>
              && Path(reply, ActivePath).Ok? && Truthy(Path(reply, ActivePath).value)
              && Path(reply, DurationPath) == Ok(r.value.duration)
              && Path(reply, BytesPath) == Ok(r.value.bytes)
    ensures r.Ok? && r.value.NotStreaming? ==>
              Path(reply, ActivePath).Ok? && !Truthy(Path(reply, ActivePath).value)
    ensures Path(reply, ResultPath).Ok? && Truthy(Path(reply, ResultPath).value) && c != GetStreamStatus ==>
              r == Ok(Done)
    ensures Path(reply, ResultPath).Ok? && !Truthy(Path(reply, ResultPath).value) && Path(reply, CommentPath).Ok? ==>
              r == Ok(Refused(Path(reply, CommentPath).value))
    ensures Path(reply, ResultPath).Ok? && Truthy(Path(reply, ResultPath).value) && c == GetStreamStatus
            && Path(reply, ActivePath).Ok? && !Truthy(Path(reply, ActivePath).value) ==>
              r == Ok(NotStreaming)
    ensures Path(reply, ResultPath).Ok? && Truthy(Path(reply, ResultPath).value) && c == GetStreamStatus
            && Path(reply, ActivePath).Ok? && Truthy(Path(reply, ActivePath).value)
            && Path(reply, DurationPath).Ok? && Path(reply, BytesPath).Ok? ==>
              r == Ok(Streaming(Path(reply, DurationPath).value, Path(reply, BytesPath).value))
  {
    match Path(reply, ResultPath)
    case Raise => Raise
    case Ok(result) =>
      if !Truthy(result) then
        match Path(reply, CommentPath)
        case Raise => Raise
        case Ok(comment) => Ok(Refused(comment))
      else if c != GetStreamStatus then Ok(Done)
      else
        match Path(reply, ActivePath)
        case Raise => Raise
        case Ok(active) =>
          if !Truthy(active) then Ok(NotStreaming)
          else
            match (Path(reply, DurationPath), Path(reply, BytesPath))
            case (Ok(duration), Ok(bytes)) => Ok(Streaming(duration, bytes))
            case _ => Raise
  }

  /** One command, with the link afterwards. */
  datatype Exchange = Exchange(outcome: Eval<Report>, link: Link)

  /**
    The outcome of command `c` when its reply is the next frame of `inbox`: a peer that
    has closed, or text that is not JSON, raises.
   */
  function Answered(c: Command, inbox: seq<Frame>): Eval<Report> {
    if inbox == [] || inbox[0].Garbled? then Raise else Interpret(c, inbox[0].value)
  }

  /**
    Sends the command's request and reads one reply, in that order. Without an open
    socket the call raises before sending (`self.websocket` is None, or closed).
   */
  function Issue(c: Command, l: Link): (x: Exchange)
    ensures l.socket != Live ==> x == Exchange(Raise, l)
    ensures l.socket == Live ==> x.link.socket == Live && x.outcome == Answered(c, l.inbox)
    ensures l.socket == Live && l.inbox == [] ==> Step(l, x.link, [Sent(EncodeRequest(RequestOf(c)))], 0)
    ensures l.socket == Live && l.inbox != [] ==>
              Step(l, x.link, [Sent(EncodeRequest(RequestOf(c))), Received(l.inbox[0])], 1)
    ensures SentMessages(x.link.trace) ==
              SentMessages(l.trace) + (if l.socket == Live then [EncodeRequest(RequestOf(c))] else [])
    ensures Actions(x.link.trace) ==
              Actions(l.trace) + (if l.socket == Live then [Sent(EncodeRequest(RequestOf(c)))] else [])
    ensures Extends(l, x.link)
  {
    if l.socket != Live then Exchange(Raise, l)
    else
      var l1 := Send(l, EncodeRequest(RequestOf(c)));
      var (reply, l2) := Recv(l1);
      match reply
      case Raise => Exchange(Raise, l2)
      case Ok(v) => Exchange(Interpret(c, v), l2)
  }

  /** `reply` with its `op` and its echoed `d.requestId` replaced. */
  function Recorrelate(reply: Json, op: Json, requestId: Json): Json {
    match reply
    case Object(fields) =>
      var fields' := fields["op" := op];
      if "d" in fields && fields["d"].Object? then
        Object(fields'["d" := Object(fields["d"].fields["requestId" := requestId])])
      else Object(fields')
    case _ => reply
  }

  /**
    The outcome of a command does not depend on the reply's `op` or on the `requestId`
    it echoes: no correlation check is made.
   */
  lemma OutcomeIgnoresCorrelation(c: Command, reply: Json, op: Json, requestId: Json)
    ensures Interpret(c, Recorrelate(reply, op, requestId)) == Interpret(c, reply)
  {
    var reply' := Recorrelate(reply, op, requestId);
    if reply.Object? && "d" in reply.fields {
      var d := reply.fields["d"];
      assert Index(reply', "d").Ok?;
      var d' := Index(reply', "d").value;
      assert Index(d', "requestStatus") == Index(d, "requestStatus");
      assert Index(d', "responseData") == Index(d, "responseData");
      assert Path(reply', ResultPath) == Path(reply, ResultPath);
      assert Path(reply', CommentPath) == Path(reply, CommentPath);
      assert Path(reply', ActivePath) == Path(reply, ActivePath);
      assert Path(reply', DurationPath) == Path(reply, DurationPath);
      assert Path(reply', BytesPath) == Path(reply, BytesPath);
    } else {
      assert Path(reply', ResultPath) == Raise;
    }
  }

  /**
    What each command reports for a well-formed obs-websocket reply, for every `op` and
    every echoed `requestType` and `requestId`. A failure without a comment raises,
    because the comment is subscripted unconditionally.
   */
  lemma WellFormedReply(c: Command, x: Reply)
    ensures x.status.result && c != GetStreamStatus ==> Interpret(c, EncodeReply(x)) == Ok(Done)
    ensures !x.status.result && x.status.comment.Some? ==>
              Interpret(c, EncodeReply(x)) == Ok(Refused(Str(x.status.comment.value)))
    ensures !x.status.result && x.status.comment.None? ==> Interpret(c, EncodeReply(x)) == Raise
    ensures x.status.result && c == GetStreamStatus ==>
              Interpret(c, EncodeReply(x)) ==
                match x.responseData
                case None => Raise
                case Some(s) =>
                  if s.outputActive then Ok(Streaming(Int(s.outputDuration), Int(s.outputBytes)))
                  else Ok(NotStreaming)
  {
    ReplyFields(x);
  }

  /** Where each field of an encoded reply is found by the paths the commands read. */
  lemma ReplyFields(x: Reply)
    ensures Path(EncodeReply(x), ResultPath) == Ok(Bool(x.status.result))
    ensures Path(EncodeReply(x), CommentPath) ==
              (if x.status.comment.Some? then Ok(Str(x.status.comment.value)) else Raise)
    ensures x.responseData.None? ==> Path(EncodeReply(x), ActivePath) == Raise
    ensures x.responseData.Some? ==>
              && Path(EncodeReply(x), ActivePath) == Ok(Bool(x.responseData.value.outputActive))
              && Path(EncodeReply(x), DurationPath) == Ok(Int(x.responseData.value.outputDuration))
              && Path(EncodeReply(x), BytesPath) == Ok(Int(x.responseData.value.outputBytes))
  {
    var j := EncodeReply(x);
    assert Index(j, "d").Ok?;
    var d := Index(j, "d").value;
    assert Index(d, "requestStatus") == Ok(EncodeStatus(x.status));
    var st := EncodeStatus(x.status);
    assert Index(st, "result") == Ok(Bool(x.status.result));
    match x.status.comment {
      case None =>
        assert "comment" !in st.fields;
      case Some(m) =>
        assert Index(st, "comment") == Ok(Str(m));
    }
    match x.responseData {
      case None =>
        assert "responseData" !in d.fields;
      case Some(s) =>
        assert Index(d, "responseData") == Ok(EncodeStreamData(s));
    }
  }
}

=== FILE: envelopes.dfy ===
/**
  The obs-websocket v5 envelopes the controller exchanges, as typed values, and their
  JSON encodings `{ "op": ..., "d": { ... } }`.

  The client builds Identify (op 1) and Request (op 6) envelopes and sends their
  encodings. Hello (op 0), Identified (op 2) and RequestResponse (op 7) are what a
  well-behaved server sends; the controller itself reads replies as raw JSON, so these
  typed forms serve to state what it does with well-formed input.
 */
module Envelopes {
  import opened Json

  const OpHello := 0
  const OpIdentify := 1
  const OpIdentified := 2
  const OpRequest := 6
  const OpRequestResponse := 7

  /** The RPC version the controller announces in every Identify. */
  const RpcVersion := 1

  /** An authentication challenge carried by a Hello. */
  datatype Challenge = Challenge(challenge: string, salt: string)

  /** Server greeting (op 0). */
  datatype Hello = Hello(rpcVersion: int, authentication: Option<Challenge>)

  /** Client identification (op 1); `authentication` holds the computed token, if any. */
  datatype Identify = Identify(rpcVersion: int, authentication: Option<string>)

  /** Client request (op 6). */
  datatype Request = Request(requestType: string, requestId: string)

  /** `d.requestStatus` of a reply. */
  datatype RequestStatus = RequestStatus(result: bool, code: int, comment: Option<string>)

  /** `d.responseData` of a GetStreamStatus reply (the fields the controller reads). */
  datatype StreamData = StreamData(outputActive: bool, outputDuration: int, outputBytes: int)

  /**
    A reply. `op` is any number, not only 7, and `requestId` any string: the model of
    the controller is meant to be stated over all of them.
   */
  datatype Reply = Reply(op: int, requestType: string, requestId: string,
                         status: RequestStatus, responseData: Option<StreamData>)

  function Envelope(op: int, d: map<string, Json>): Json {
    Object(map["op" := Int(op), "d" := Object(d)])
  }

  function EncodeHello(h: Hello): Json {
    var base := map["rpcVersion" := Int(h.rpcVersion)];
    match h.authentication
    case None => Envelope(OpHello, base)
    case Some(c) =>
      Envelope(OpHello, base["authentication" := Object(map["challenge" := Str(c.challenge), "salt" := Str(c.salt)])])
  }

  function EncodeIdentify(i: Identify): (j: Json)
    ensures Index(j, "op") == Ok(Int(OpIdentify))
    ensures Path(j, ["d", "rpcVersion"]) == Ok(Int(i.rpcVersion))
    ensures Index(j, "d").Ok? && Contains(Index(j, "d").value, "authentication") == Ok(i.authentication.Some?)
    ensures j.Object? && j.fields.Keys == {"op", "d"}
    ensures Index(j, "d").Ok? && Index(j, "d").value.Object?
            && Index(j, "d").value.fields.Keys == {"rpcVersion"} + (if i.authentication.Some? then {"authentication"} else {})
  {
    var base := map["rpcVersion" := Int(i.rpcVersion)];
    match i.authentication
    case None => Envelope(OpIdentify, base)
    case Some(token) => Envelope(OpIdentify, base["authentication" := Str(token)])
  }

  /** How a server reads an Identify; the inverse of `EncodeIdentify`. */
  function DecodeIdentify(j: Json): Option<Identify> {
    if Index(j, "op") != Ok(Int(OpIdentify)) then None
    else
      match Path(j, ["d", "rpcVersion"])
      case Ok(Int(v)) =>
        (match Path(j, ["d", "authentication"])
         case Raise => Some(Identify(v, None))
         case Ok(Str(t)) => Some(Identify(v, Some(t)))
         case Ok(_) => None)
      case _ => None
  }

  function EncodeRequest(r: Request): (j: Json)
    ensures Index(j, "op") == Ok(Int(OpRequest))
    ensures Path(j, ["d", "requestType"]) == Ok(Str(r.requestType))
    ensures Path(j, ["d", "requestId"]) == Ok(Str(r.requestId))
    ensures j.Object? && j.fields.Keys == {"op", "d"}
    ensures Index(j, "d").Ok? && Index(j, "d").value.Object?
            && Index(j, "d").value.fields.Keys == {"requestType", "requestId"}
  {
    Envelope(OpRequest, map["requestType" := Str(r.requestType), "requestId" := Str(r.requestId)])
  }

  /** How a server reads a Request; the inverse of `EncodeRequest`. */
  function DecodeRequest(j: Json): Option<Request> {
    if Index(j, "op") != Ok(Int(OpRequest)) then None
    else
      match (Path(j, ["d", "requestType"]), Path(j, ["d", "requestId"]))
      case (Ok(Str(t)), Ok(Str(id))) => Some(Request(t, id))
      case _ => None
  }

  function EncodeStatus(s: RequestStatus): Json {
    var base := map["result" := Bool(s.result), "code" := Int(s.code)];
    match s.comment
    case None => Object(base)
    case Some(c) => Object(base["comment" := Str(c)])
  }

  function EncodeStreamData(s: StreamData): Json {
    Object(map["outputActive" := Bool(s.outputActive),
               "outputDuration" := Int(s.outputDuration),
               "outputBytes" := Int(s.outputBytes)])
  }

  function EncodeReply(r: Reply): Json {
    var base := map["requestType" := Str(r.requestType),
                    "requestId" := Str(r.requestId),
                    "requestStatus" := EncodeStatus(r.status)];
    match r.responseData
    case None => Envelope(r.op, base)
    case Some(data) => Envelope(r.op, base["responseData" := EncodeStreamData(data)])
  }

  /** Every Identify survives encoding: a server decodes exactly what the client built. */
  lemma IdentifyRoundTrip(i: Identify)
    ensures DecodeIdentify(EncodeIdentify(i)) == Some(i)
  {
    var j := EncodeIdentify(i);
    assert Index(j, "d").Ok?;
    var d := Index(j, "d").value;
    assert Index(d, "rpcVersion") == Ok(Int(i.rpcVersion));
    assert Path(j, ["d", "rpcVersion"]) == Ok(Int(i.rpcVersion));
    match i.authentication
    case None =>
      assert "authentication" !in d.fields;
      assert Path(j, ["d", "authentication"]) == Raise;
    case Some(t) =>
      assert Index(d, "authentication") == Ok(Str(t));
      assert Path(j, ["d", "authentication"]) == Ok(Str(t));
  }

  /** Every Request survives encoding. */
  lemma RequestRoundTrip(r: Request)
    ensures DecodeRequest(EncodeRequest(r)) == Some(r)
  {
  }
}

=== FILE: handshake.dfy ===
/**
  `OBSController.connect` and `_send_identify`: the obs-websocket v5 handshake
  Hello (op 0) -> Identify (op 1) -> Identified (op 2).
 */
module Handshake {
  import opened Json
  import opened Envelopes
  import opened Auth
  import opened Transport

  /** Python truthiness of the configured password (None and "" are false). */
  predicate PasswordGiven(password: Option<string>) {
    password.Some? && password.value != ""
  }

  /** The Hello's `d` exists and `"authentication" in d` holds. */
  predicate DemandsAuth(hello: Json) {
    Index(hello, "d").Ok? && Contains(Index(hello, "d").value, "authentication") == Ok(true)
  }

  /** The challenge and salt the Hello carries, when both are strings. */
  predicate HasChallenge(hello: Json, challenge: string, salt: string) {
    && Path(hello, ["d", "authentication", "challenge"]) == Ok(Str(challenge))
    && Path(hello, ["d", "authentication", "salt"]) == Ok(Str(salt))
  }

  /**
    The Identify `_send_identify` would send for `hello`, or `Raise` where it raises
    before sending: a Hello without `d`, a `d` that `in` rejects, an authentication
    object lacking challenge or salt, a missing password, or a non-string salt or
    challenge (the string concatenations fail).
   */
  function BuildIdentify(hello: Json, password: Option<string>, p: Primitives): (r: Eval<Identify>)
    ensures r.Ok? ==> r.value.rpcVersion == RpcVersion
    ensures r.Ok? ==> Index(hello, "d").Ok? && Contains(Index(hello, "d").value, "authentication").Ok?
    ensures r.Ok? ==> (r.value.authentication.Some? <==> DemandsAuth(hello) && PasswordGiven(password))
    ensures r.Ok? && r.value.authentication.Some? ==>
              exists challenge, salt :: HasChallenge(hello, challenge, salt) &&
                r.value.authentication.value == AuthToken(p, password.value, salt, challenge)
    ensures DemandsAuth(hello) && !PasswordGiven(password) ==> r == Raise
  {
    match Index(hello, "d")
    case Raise => Raise
    case Ok(d) =>
      match Contains(d, "authentication")
      case Raise => Raise
      case Ok(false) => Ok(Identify(RpcVersion, None))
      case Ok(true) =>
        match Index(d, "authentication")
        case Raise => Raise
        case Ok(auth) =>
          match (Index(auth, "challenge"), Index(auth, "salt"))
          case (Ok(challenge), Ok(salt)) =>
            if !PasswordGiven(password) then Raise
            else if !salt.Str? || !challenge.Str? then Raise
            else
              assert HasChallenge(hello, challenge.s, salt.s);
              Ok(Identify(RpcVersion, Some(AuthToken(p, password.value, salt.s, challenge.s))))
          case _ => Raise
  }

  /** Everything is present and well-typed for `_send_identify` to send an Identify. */
  lemma BuildIdentifySucceeds(hello: Json, password: Option<string>, p: Primitives, challenge: string, salt: string)
    requires HasChallenge(hello, challenge, salt) && PasswordGiven(password)
    ensures BuildIdentify(hello, password, p) ==
            Ok(Identify(RpcVersion, Some(AuthToken(p, password.value, salt, challenge))))
  {
    assert Index(hello, "d").Ok?;
    var d := Index(hello, "d").value;
    assert Path(d, ["authentication", "challenge"]) == Ok(Str(challenge));
    assert Index(d, "authentication").Ok?;
  }

  /** Events `connect()` may produce: receptions, and sends of an Identify only. */
  predicate HandshakeEvents(events: seq<Event>) {
    forall e :: e in events ==> e.Received? || (e.Sent? && Index(e.msg, "op") == Ok(Int(OpIdentify)))
  }

  /** `msg` is the Identify `_send_identify` builds for `hello`. */
  predicate IdentifyFor(msg: Json, hello: Json, password: Option<string>, p: Primitives) {
    BuildIdentify(hello, password, p).Ok? && msg == EncodeIdentify(BuildIdentify(hello, password, p).value)
  }

  /** The whole `connect()` outcome and the link afterwards. */
  datatype Connection = Connection(ready: bool, link: Link)

  /**
    `connect()`. `reachable` says whether `websockets.connect(uri)` succeeds; when it
    does, the socket stays open whatever the handshake's outcome. Every exception,
    connection refused included, becomes `false`.
   */
  function Connect(l: Link, reachable: bool, password: Option<string>, p: Primitives): (c: Connection)
    requires l.socket == NoSocket
    ensures !reachable ==> c == Connection(false, l)
    ensures reachable ==> c.link.socket == Live
    ensures c.ready ==>
              && |l.inbox| >= 2 && c.link.inbox == l.inbox[2..]
              && |c.link.trace| == |l.trace| + 3
              && c.link.trace[|l.trace|] == Received(l.inbox[0])
              && c.link.trace[|l.trace| + 1].Sent?
              && l.inbox[0].Text? && IdentifyFor(c.link.trace[|l.trace| + 1].msg, l.inbox[0].value, password, p)
              && c.link.trace[|l.trace| + 2] == Received(l.inbox[1])
              && l.inbox[1].Text? && Index(l.inbox[1].value, "op") == Ok(Int(OpIdentified))
    ensures Extends(l, c.link)
    ensures HandshakeEvents(c.link.trace[|l.trace|..])
    ensures |SentMessages(c.link.trace)| <= |SentMessages(l.trace)| + 1
  {
    if !reachable then Connection(false, l)
    else
      var (hello, l2) := Recv(l.(socket := Live));
      match hello
      case Raise => Connection(false, l2)
      case Ok(h) =>
        var c := Answer(l2, h, password, p);
        assert c.link.trace[|l.trace|..] == [Received(l.inbox[0])] + c.link.trace[|l2.trace|..];
        c
  }

  /**
    The rest of `connect()` once the Hello `hello` has been read from `l`: build and send
    the Identify, then read the next frame and check that its `op` is 2.
   */
  function Answer(l: Link, hello: Json, password: Option<string>, p: Primitives): (c: Connection)
    requires l.socket == Live
    ensures c.link.socket == Live
    ensures c.ready ==>
              && |l.inbox| >= 1 && c.link.inbox == l.inbox[1..]
              && |c.link.trace| == |l.trace| + 2
              && c.link.trace[|l.trace|].Sent?
              && IdentifyFor(c.link.trace[|l.trace|].msg, hello, password, p)
              && c.link.trace[|l.trace| + 1] == Received(l.inbox[0])
              && l.inbox[0].Text? && Index(l.inbox[0].value, "op") == Ok(Int(OpIdentified))
    ensures Extends(l, c.link)
    ensures HandshakeEvents(c.link.trace[|l.trace|..])
    ensures forall e :: e in c.link.trace[|l.trace|..] && e.Sent? ==> IdentifyFor(e.msg, hello, password, p)
    ensures |SentMessages(c.link.trace)| <= |SentMessages(l.trace)| + 1
  {
    match BuildIdentify(hello, password, p)
    case Raise => Connection(false, l)
    case Ok(identify) =>
      var msg := EncodeIdentify(identify);
      var l3 := Send(l, msg);
      var (ack, l4) := Recv(l3);
      var events := if l.inbox == [] then [Sent(msg)] else [Sent(msg), Received(l.inbox[0])];
      assert l4.trace == l.trace + events;
      assert l4.trace[|l.trace|..] == events;
      match ack
      case Raise => Connection(false, l4)
      case Ok(a) => Connection(Index(a, "op") == Ok(Int(OpIdentified)), l4)
  }

  /**
    The only message `connect()` ever sends, whatever its outcome, is the Identify built
    from the first frame it received.
   */
  lemma ConnectSendsOnlyIdentify(l: Link, reachable: bool, password: Option<string>, p: Primitives)
    requires l.socket == NoSocket
    ensures var c := Connect(l, reachable, password, p);
            forall e :: e in c.link.trace[|l.trace|..] && e.Sent? ==>
              |l.inbox| >= 1 && l.inbox[0].Text? && IdentifyFor(e.msg, l.inbox[0].value, password, p)
  {
    var c := Connect(l, reachable, password, p);
    if reachable && l.inbox != [] && l.inbox[0].Text? {
      var (hello, l2) := Recv(l.(socket := Live));
      var a := Answer(l2, l.inbox[0].value, password, p);
      assert c == a;
      assert c.link.trace[|l.trace|..] == [Received(l.inbox[0])] + a.link.trace[|l2.trace|..];
    } else if reachable && l.inbox != [] {
      assert c.link.trace[|l.trace|..] == [Received(l.inbox[0])];
    } else {
      assert c.link.trace[|l.trace|..] == [];
    }
  }

  /**
    `connect()` returns true exactly when the socket opened, the first frame is JSON from
    which an Identify can be built, and the frame after the Identify is JSON whose `op`
    is 2. The Hello's own `op` is not looked at.
   */
  lemma ConnectReadyIff(l: Link, reachable: bool, password: Option<string>, p: Primitives)
    requires l.socket == NoSocket
    ensures Connect(l, reachable, password, p).ready <==>
              && reachable
              && |l.inbox| >= 2
              && l.inbox[0].Text?
              && BuildIdentify(l.inbox[0].value, password, p).Ok?
              && l.inbox[1].Text?
              && Index(l.inbox[1].value, "op") == Ok(Int(OpIdentified))
  {
    if reachable && l.inbox != [] && l.inbox[0].Text? {
      var l1 := l.(socket := Live);
      var (hello, l2) := Recv(l1);
      assert l2.inbox == l.inbox[1..];
      if BuildIdentify(l.inbox[0].value, password, p).Ok? {
        var l3 := Send(l2, EncodeIdentify(BuildIdentify(l.inbox[0].value, password, p).value));
        assert l3.inbox == l.inbox[1..];
      }
    }
  }

  /**
    When the Hello demands authentication and no password is configured, `connect()`
    returns false and nothing at all is sent: the raise precedes the send.
   */
  lemma NoPasswordNoIdentify(l: Link, reachable: bool, password: Option<string>, p: Primitives)
    requires l.socket == NoSocket
    requires l.inbox != [] && l.inbox[0].Text? && DemandsAuth(l.inbox[0].value)
    requires !PasswordGiven(password)
    ensures !Connect(l, reachable, password, p).ready
    ensures SentMessages(Connect(l, reachable, password, p).link.trace) == SentMessages(l.trace)
  {
    var c := Connect(l, reachable, password, p);
    if reachable {
      assert c.link.trace == l.trace + [Received(l.inbox[0])];
      SentMessagesAppend(l.trace, [Received(l.inbox[0])]);
    }
  }

  /**
    A Hello without `authentication` in its `d` gets an Identify without a token, whether
    or not a password is configured.
   */
  lemma NoChallengeNoToken(hello: Json, password: Option<string>, p: Primitives)
    requires Index(hello, "d").Ok? && Contains(Index(hello, "d").value, "authentication") == Ok(false)
    ensures BuildIdentify(hello, password, p) == Ok(Identify(RpcVersion, None))
  {
  }

  /**
    The handshake of a well-behaved server: Hello with challenge "c1" and salt "s1",
    password "pw", then an Identified. The controller sends exactly one Identify, whose
    token is B64(SHA256(UTF8(B64(SHA256(UTF8("pws1"))) + "c1"))), and reports ready.
   */
  lemma ChallengeScenario(p: Primitives, rest: seq<Frame>)
    ensures var hello := EncodeHello(Hello(1, Some(Challenge("c1", "s1"))));
            var ack := Envelope(OpIdentified, map["negotiatedRpcVersion" := Int(1)]);
            var token := p.b64encode(p.sha256(p.utf8(p.b64encode(p.sha256(p.utf8("pws1"))) + "c1")));
            var c := Connect(Fresh([Text(hello), Text(ack)] + rest), true, Some("pw"), p);
            && c.ready
            && c.link.trace == [Received(Text(hello)), Sent(EncodeIdentify(Identify(1, Some(token)))), Received(Text(ack))]
            && c.link.inbox == rest
  {
    var hello := EncodeHello(Hello(1, Some(Challenge("c1", "s1"))));
    assert HasChallenge(hello, "c1", "s1");
    BuildIdentifySucceeds(hello, Some("pw"), p, "c1", "s1");
    assert "pw" + "s1" == "pws1";
  }
}

=== FILE: json.dfy ===
/**
  Decoded JSON documents as `json.loads` hands them to the controller, and the
  handful of Python operations the controller applies to them: subscription
  `v[key]`, membership `key in v` and truthiness `bool(v)`.

  Python raises on a missing key or on subscripting a non-object; every such
  evaluation is an `Eval` that is either a value or `Raise`.
 */
module Json {

  /** A decoded JSON value. Numbers are integers only (see README). */
  datatype Json =
    | Null
    | Bool(b: bool)
    | Int(i: int)
    | Str(s: string)
    | Array(items: seq<Json>)
    | Object(fields: map<string, Json>)

  /** An optional value (a Python `None` or a value). */
  datatype Option<+T> = None | Some(value: T)

  /** The outcome of evaluating a Python expression: a value, or an exception. */
  datatype Eval<+T> = Ok(value: T) | Raise

  /** Python's `bool(v)` for a decoded JSON value. */
  predicate Truthy(v: Json) {
    match v
    case Null => false
    case Bool(b) => b
    case Int(i) => i != 0
    case Str(s) => s != ""
    case Array(items) => items != []
    case Object(fields) => fields != map[]
  }

  /** `v[key]` with a string key: a KeyError or TypeError unless `v` is an object holding `key`. */
  function Index(v: Json, key: string): Eval<Json> {
    if v.Object? && key in v.fields then Ok(v.fields[key]) else Raise
  }

  /** `v[k0][k1]...`, evaluated left to right; the first failing subscription raises. */
  function Path(v: Json, keys: seq<string>): Eval<Json>
    decreases |keys|
  {
    if keys == [] then Ok(v)
    else
      match Index(v, keys[0])
      case Raise => Raise
      case Ok(w) => Path(w, keys[1..])
  }

  /** `needle` occurs as a contiguous piece of `hay` (Python's `needle in hay` on two str). */
  predicate IsSubstring(needle: string, hay: string)
    decreases |hay|
  {
    if |hay| < |needle| then false
    else hay[..|needle|] == needle || IsSubstring(needle, hay[1..])
  }

  /**
    Python's `key in v` for a str `key`: key membership for a dict, substring test for
    a str, element equality for a list, and a TypeError for null, bool and numbers.
   */
  function Contains(v: Json, key: string): Eval<bool> {
    match v
    case Object(fields) => Ok(key in fields)
    case Str(s) => Ok(IsSubstring(key, s))
    case Array(items) => Ok(Str(key) in items)
    case _ => Raise
  }
}

=== FILE: scheduler.dfy ===
/**
  `schedule_stream`: wait for the next occurrence of an "HH:MM" time, start the stream,
  and, when a non-zero duration is given, wait that many minutes and stop it. Every
  exception is caught and printed, so the routine itself never raises.
 */
module Scheduler {
  import opened Json
  import opened Envelopes
  import opened Transport
  import opened Commands
  import opened Clock

  /** Python truthiness of `duration_minutes` (None and 0 are false). */
  predicate DurationGiven(duration: Option<int>) {
    duration.Some? && duration.value != 0
  }

  /** What happened: a rejected time string, or the start (and perhaps stop) commands. */
  datatype Schedule =
    | InvalidTime
    | Fired(at: Occurrence, start: Eval<Report>, stop: Option<Eval<Report>>)

  datatype Scheduled = Scheduled(outcome: Schedule, link: Link)

  /** The requests a fired schedule sent on an open socket, in order. */
  function FiredRequests(stopped: bool): seq<Json> {
    var start := EncodeRequest(RequestOf(StartStream));
    if stopped then [start, EncodeRequest(RequestOf(StopStream))] else [start]
  }

  /**
    The sends and waits once the start time is reached, in order: StartStream (sent only
    on an open socket), then, when the schedule goes on to stop, the wait of `duration`
    minutes followed by StopStream.
   */
  function FiredActions(live: bool, stopped: bool, duration: Option<int>): seq<Event>
    requires stopped ==> duration.Some?
  {
    var start := Sent(EncodeRequest(RequestOf(StartStream)));
    var stop := Sent(EncodeRequest(RequestOf(StopStream)));
    if stopped then
      if live then [start, Slept(duration.value * 60), stop] else [Slept(duration.value * 60), stop]
    else if live then [start] else []
  }

  /**
    A fired schedule on an open socket goes on to stop exactly when the start's reply,
    the next frame of `inbox`, did not raise and a duration is given.
   */
  predicate Stops(duration: Option<int>, inbox: seq<Frame>) {
    Answered(StartStream, inbox).Ok? && DurationGiven(duration)
  }

  /**
    Everything a schedule for h:m sends and waits for, in order, on an open socket whose
    next frames are `inbox`: the wait until the next occurrence, StartStream, and then
    perhaps the stop.
   */
  function ScheduledActions(now: int, h: int, m: int, duration: Option<int>, inbox: seq<Frame>): seq<Event>
    requires 0 <= now < DaySeconds && 0 <= h <= 23 && 0 <= m <= 59
  {
    [Slept(NextOccurrence(now, h, m).wait)] + FiredActions(true, Stops(duration, inbox), duration)
  }

  /**
    `schedule_stream(start_time, duration_minutes)`: parse the time, wait until its next
    occurrence, start the stream and perhaps stop it later. Exceptions are caught, so
    the outcome is reported instead of raised.
   */
  function ScheduleStream(l: Link, now: int, startTime: string, duration: Option<int>): (r: Scheduled)
    requires 0 <= now < DaySeconds
    ensures ParseClock(startTime).None? <==> r.outcome.InvalidTime?
    ensures r.outcome.InvalidTime? ==> r.link == l
    ensures r.outcome.Fired? ==>
              && r.outcome.at == NextOccurrence(now, ParseClock(startTime).value.0, ParseClock(startTime).value.1)
              && 0 < r.outcome.at.wait <= DaySeconds
    ensures r.outcome.Fired? ==> r.outcome.start == (if l.socket == Live then Answered(StartStream, l.inbox) else Raise)
    ensures r.outcome.Fired? ==> (r.outcome.stop.Some? <==> r.outcome.start.Ok? && DurationGiven(duration))
    ensures r.outcome.Fired? ==>
              && SentMessages(r.link.trace) ==
                   SentMessages(l.trace) + (if l.socket == Live then FiredRequests(r.outcome.stop.Some?) else [])
              && Actions(r.link.trace) ==
                   Actions(l.trace) + [Slept(r.outcome.at.wait)]
                   + FiredActions(l.socket == Live, r.outcome.stop.Some?, duration)
    ensures r.link.socket == l.socket
    ensures Extends(l, r.link)
  {
    match ParseClock(startTime)
    case None => Scheduled(InvalidTime, l)
    case Some((h, m)) =>
      var at := NextOccurrence(now, h, m);
      var l1 := Sleep(l, at.wait);
      var f := StartThenStop(l1, duration);
      ExtendsTransitive(l, l1, f.link);
      Scheduled(Fired(at, f.start, f.stop), f.link)
  }

  /**
    On an open socket a schedule with a parsable time waits, sends StartStream, and goes
    on to wait and send StopStream exactly when `Stops` says so, in that order.
   */
  lemma ScheduleOnOpenSocket(l: Link, now: int, startTime: string, duration: Option<int>)
    requires 0 <= now < DaySeconds && l.socket == Live && ParseClock(startTime).Some?
    ensures var r := ScheduleStream(l, now, startTime, duration);
            var hm := ParseClock(startTime).value;
            && SentMessages(r.link.trace) == SentMessages(l.trace) + FiredRequests(Stops(duration, l.inbox))
            && Actions(r.link.trace) == Actions(l.trace) + ScheduledActions(now, hm.0, hm.1, duration, l.inbox)
  {
    var r := ScheduleStream(l, now, startTime, duration);
    var hm := ParseClock(startTime).value;
    assert r.outcome.stop.Some? == Stops(duration, l.inbox);
    AppendAssoc(Actions(l.trace), [Slept(r.outcome.at.wait)], FiredActions(true, Stops(duration, l.inbox), duration));
  }

  /** The start command and, when the schedule goes on, the stop command of a fired schedule. */
  datatype Firing = Firing(start: Eval<Report>, stop: Option<Eval<Report>>, link: Link)

  /**
    After the wait: start the stream; when the start did not raise and a duration is
    given, wait `duration` minutes and stop it. A start the server refuses still goes on
    to the stop; only a raise skips it.
   */
  function StartThenStop(l: Link, duration: Option<int>): (f: Firing)
    ensures f.start == (if l.socket == Live then Answered(StartStream, l.inbox) else Raise)
    ensures f.stop.Some? <==> f.start.Ok? && DurationGiven(duration)
    ensures f.stop.Some? ==> |l.inbox| >= 1 && f.stop.value == Answered(StopStream, l.inbox[1..])
    ensures SentMessages(f.link.trace) ==
              SentMessages(l.trace) + (if l.socket == Live then FiredRequests(f.stop.Some?) else [])
    ensures Actions(f.link.trace) == Actions(l.trace) + FiredActions(l.socket == Live, f.stop.Some?, duration)
    ensures f.link.socket == l.socket
    ensures Extends(l, f.link)
  {
    var start := Issue(StartStream, l);
    if start.outcome.Raise? || !DurationGiven(duration) then
      Firing(start.outcome, None, start.link)
    else
      ThenStop(l, start, duration.value)
  }

  /** The stop half of `StartThenStop`, after a start that did not raise. */
  function ThenStop(l: Link, start: Exchange, minutes: int): (f: Firing)
    requires start == Issue(StartStream, l) && start.outcome.Ok?
    ensures f.start == start.outcome && f.stop.Some?
    ensures |l.inbox| >= 1 && f.stop.value == Answered(StopStream, l.inbox[1..])
    ensures SentMessages(f.link.trace) == SentMessages(l.trace) + FiredRequests(true)
    ensures Actions(f.link.trace) ==
              Actions(l.trace) + [Sent(EncodeRequest(RequestOf(StartStream))), Slept(minutes * 60),
                                  Sent(EncodeRequest(RequestOf(StopStream)))]
    ensures f.link.socket == l.socket
    ensures Extends(l, f.link)
  {
    var stop := StopAfter(start.link, minutes);
    ExtendsTransitive(l, start.link, stop.link);
    var startReq := EncodeRequest(RequestOf(StartStream));
    var stopReq := EncodeRequest(RequestOf(StopStream));
    AppendAssoc(SentMessages(l.trace), [startReq], [stopReq]);
    var acts := Actions(l.trace);
    AppendAssoc(acts + [Sent(startReq)], [Slept(minutes * 60)], [Sent(stopReq)]);
    AppendAssoc(acts, [Sent(startReq)], [Slept(minutes * 60)] + [Sent(stopReq)]);
    JoinSingletons(Sent(startReq), Slept(minutes * 60), Sent(stopReq));
    Firing(start.outcome, Some(stop.outcome), stop.link)
  }

  /** `asyncio.sleep(minutes * 60)` followed by `stop_streaming()`: the wait comes first. */
  function StopAfter(l: Link, minutes: int): (x: Exchange)
    ensures l.socket == Live ==> x.outcome == Answered(StopStream, l.inbox)
    ensures SentMessages(x.link.trace) ==
              SentMessages(l.trace) + (if l.socket == Live then [EncodeRequest(RequestOf(StopStream))] else [])
    ensures Actions(x.link.trace) ==
              Actions(l.trace) + [Slept(minutes * 60)]
              + (if l.socket == Live then [Sent(EncodeRequest(RequestOf(StopStream)))] else [])
    ensures x.link.socket == l.socket
    ensures Extends(l, x.link)
  {
    var l2 := Sleep(l, minutes * 60);
    var stop := Issue(StopStream, l2);
    ExtendsTransitive(l, l2, stop.link);
    stop
  }
}

=== FILE: session.dfy ===
/**
  The session flow of `main`, without the argument parser: connect; when ready, perform
  the chosen action inside `try` and disconnect in its `finally`.
 */
module Session {
  import opened Json
  import opened Envelopes
  import opened Auth
  import opened Transport
  import opened Handshake
  import opened Commands
  import opened Clock
  import opened Scheduler

  /** The action selected on the command line, with its `--time` and `--duration`. */
  datatype Action =
    | Start
    | Stop
    | Status
    | ScheduleAt(time: Option<string>, duration: Option<int>)

  /** `ready`: what `connect()` returned; `raised`: the action's exception escaped `main`. */
  datatype Run = Run(ready: bool, raised: bool, link: Link)

  predicate IsRequest(msg: Json) {
    Index(msg, "op") == Ok(Int(OpRequest))
  }

  /** The single command a direct action issues. */
  function CommandOf(a: Action): Option<Command> {
    match a
    case Start => Some(StartStream)
    case Stop => Some(StopStream)
    case Status => Some(GetStreamStatus)
    case ScheduleAt(_, _) => None
  }

  /** A `schedule` action whose `--time` is present and non-empty (`if not args.time` is false). */
  predicate TimeGiven(a: Action) {
    a.ScheduleAt? && a.time.Some? && a.time.value != ""
  }

  /**
    The body of the `try`: one command, or the schedule. A missing or empty `--time`
    returns early, still inside the `try`. The schedule catches its own exceptions.
   */
  function Perform(a: Action, l: Link, now: int): (r: (bool, Link))
    requires 0 <= now < DaySeconds
    ensures r.1.socket == l.socket
    ensures Extends(l, r.1)
    ensures r.0 ==> CommandOf(a).Some?
    ensures CommandOf(a).Some? && l.socket == Live ==>
              SentMessages(r.1.trace) == SentMessages(l.trace) + [EncodeRequest(RequestOf(CommandOf(a).value))]
    ensures CommandOf(a).Some? && l.socket == Live ==>
              Actions(r.1.trace) == Actions(l.trace) + [Sent(EncodeRequest(RequestOf(CommandOf(a).value)))]
    ensures a.ScheduleAt? && !TimeGiven(a) ==> r == (false, l)
    ensures TimeGiven(a) && ParseClock(a.time.value).None? ==> r == (false, l)
    ensures TimeGiven(a) && ParseClock(a.time.value).Some? && l.socket == Live ==>
              var hm := ParseClock(a.time.value).value;
              && SentMessages(r.1.trace) == SentMessages(l.trace) + FiredRequests(Stops(a.duration, l.inbox))
              && Actions(r.1.trace) == Actions(l.trace) + ScheduledActions(now, hm.0, hm.1, a.duration, l.inbox)
  {
    match a
    case ScheduleAt(time, duration) =>
      if !TimeGiven(a) then (false, l)
      else
        if l.socket == Live && ParseClock(time.value).Some? then
          ScheduleOnOpenSocket(l, now, time.value, duration);
          (false, ScheduleStream(l, now, time.value, duration).link)
        else (false, ScheduleStream(l, now, time.value, duration).link)
    case _ =>
      var x := Issue(CommandOf(a).value, l);
      (x.outcome.Raise?, x.link)
  }

  /**
    `main()` after argument parsing: the controller starts with no socket; `reachable`
    says whether the server accepts the TCP/websocket connection, and `inbox` is what
    it will send.
   */
  function RunMain(inbox: seq<Frame>, reachable: bool, password: Option<string>, p: Primitives,
                   a: Action, now: int): (r: Run)
    requires 0 <= now < DaySeconds
    ensures r.ready == Connect(Fresh(inbox), reachable, password, p).ready
    ensures !r.ready ==> r == Run(false, false, Connect(Fresh(inbox), reachable, password, p).link)
    ensures r.ready ==>
              && Extends(Connect(Fresh(inbox), reachable, password, p).link, r.link)
              && r.link.socket == Shut && |r.link.trace| >= 4 && r.link.trace[|r.link.trace| - 1] == Closed
  {
    var c := Connect(Fresh(inbox), reachable, password, p);
    if !c.ready then Run(false, false, c.link) else Finish(c.link, a, now)
  }

  /**
    A session whose `connect()` returned false never runs the action and never
    disconnects: nothing is closed and no request is sent.
   */
  lemma FailedSession(inbox: seq<Frame>, reachable: bool, password: Option<string>, p: Primitives,
                      a: Action, now: int)
    requires 0 <= now < DaySeconds
    ensures var r := RunMain(inbox, reachable, password, p, a, now);
            !r.ready ==> !r.raised && Closed !in r.link.trace
                         && forall msg :: msg in SentMessages(r.link.trace) ==> !IsRequest(msg)
  {
    var c := Connect(Fresh(inbox), reachable, password, p);
    assert c.link.trace[0..] == c.link.trace;
    NoRequestsInHandshake(c.link.trace);
  }

  /**
    A ready session opens with the Hello received, the Identify built from that Hello
    sent, and the op-2 acknowledgement received, in that order.
   */
  lemma SessionOpening(inbox: seq<Frame>, reachable: bool, password: Option<string>, p: Primitives,
                       a: Action, now: int)
    requires 0 <= now < DaySeconds
    ensures var r := RunMain(inbox, reachable, password, p, a, now);
            r.ready ==>
              && |inbox| >= 2
              && r.link.trace[0] == Received(inbox[0])
              && r.link.trace[1].Sent?
              && inbox[0].Text? && IdentifyFor(r.link.trace[1].msg, inbox[0].value, password, p)
              && r.link.trace[2] == Received(inbox[1])
              && inbox[1].Text? && Index(inbox[1].value, "op") == Ok(Int(OpIdentified))
  {
    var c := Connect(Fresh(inbox), reachable, password, p);
    var r := RunMain(inbox, reachable, password, p, a, now);
    if r.ready {
      assert r.link.trace[0] == c.link.trace[0] && r.link.trace[1] == c.link.trace[1]
          && r.link.trace[2] == c.link.trace[2];
    }
  }

  /**
    A ready session with a direct action (`start`, `stop`, `status`) sends exactly the
    Identify and that action's one request, raised or not.
   */
  lemma DirectSession(inbox: seq<Frame>, reachable: bool, password: Option<string>, p: Primitives,
                      a: Action, now: int)
    requires 0 <= now < DaySeconds && CommandOf(a).Some?
    ensures var r := RunMain(inbox, reachable, password, p, a, now);
            r.ready ==>
              && SentMessages(r.link.trace) == [r.link.trace[1].msg, EncodeRequest(RequestOf(CommandOf(a).value))]
              && Actions(r.link.trace) == [r.link.trace[1], Sent(EncodeRequest(RequestOf(CommandOf(a).value)))]
  {
    var c := Connect(Fresh(inbox), reachable, password, p);
    var r := RunMain(inbox, reachable, password, p, a, now);
    if r.ready {
      OneRequestAfterHandshake(c.link.trace, r.link.trace, EncodeRequest(RequestOf(CommandOf(a).value)));
    }
  }

  /**
    A trace that continues a three-event handshake by exactly one request sends the
    Identify and that request, with no wait anywhere.
   */
  lemma OneRequestAfterHandshake(handshake: seq<Event>, trace: seq<Event>, req: Json)
    requires |handshake| == 3 && handshake[0].Received? && handshake[1].Sent? && handshake[2].Received?
    requires handshake <= trace
    requires SentMessages(trace) == SentMessages(handshake) + [req]
    requires Actions(trace) == Actions(handshake) + [Sent(req)]
    ensures SentMessages(trace) == [trace[1].msg, req]
    ensures Actions(trace) == [trace[1], Sent(req)]
  {
    HandshakeSends(handshake);
    assert trace[1] == handshake[1];
  }

  /** The `try` body followed by the `finally: disconnect()`, on an open socket. */
  function Finish(l: Link, a: Action, now: int): (r: Run)
    requires 0 <= now < DaySeconds && l.socket == Live
    ensures r.ready && r.link.socket == Shut
    ensures r.raised ==> CommandOf(a).Some?
    ensures |l.trace| < |r.link.trace| && Extends(l, r.link)
    ensures r.link.trace[|r.link.trace| - 1] == Closed
    ensures CommandOf(a).Some? ==>
              SentMessages(r.link.trace) == SentMessages(l.trace) + [EncodeRequest(RequestOf(CommandOf(a).value))]
    ensures CommandOf(a).Some? ==>
              Actions(r.link.trace) == Actions(l.trace) + [Sent(EncodeRequest(RequestOf(CommandOf(a).value)))]
    ensures a.ScheduleAt? && !TimeGiven(a) ==> r.link.trace == l.trace + [Closed]
    ensures TimeGiven(a) && ParseClock(a.time.value).None? ==> r.link.trace == l.trace + [Closed]
  {
    var (raised, l2) := Perform(a, l, now);
    Run(true, raised, Disconnect(l2))
  }

  /** The only message sent during a successful handshake is the Identify. */
  lemma HandshakeSends(trace: seq<Event>)
    requires |trace| == 3 && trace[0].Received? && trace[1].Sent? && trace[2].Received?
    ensures SentMessages(trace) == [trace[1].msg]
    ensures Actions(trace) == [trace[1]]
  {
    assert trace[3..] == [];
    assert SentMessages(trace[2..]) == SentMessages(trace[3..]);
    assert SentMessages(trace[1..]) == [trace[1].msg] + SentMessages(trace[2..]);
    assert Actions(trace[2..]) == Actions(trace[3..]);
    assert Actions(trace[1..]) == [trace[1]] + Actions(trace[2..]);
  }

  lemma {:induction false} NoRequestsInHandshake(events: seq<Event>)
    requires HandshakeEvents(events)
    ensures forall msg :: msg in SentMessages(events) ==> !IsRequest(msg)
    ensures Closed !in events
    decreases |events|
  {
    if events != [] {
      assert events[0] in events;
      assert HandshakeEvents(events[1..]) by {
        forall e | e in events[1..] ensures e in events { }
      }
      NoRequestsInHandshake(events[1..]);
    }
  }

  /** `schedule` without a usable `--time` connects, sends nothing more, and disconnects. */
  lemma ScheduleWithoutTime(inbox: seq<Frame>, reachable: bool, password: Option<string>, p: Primitives,
                            duration: Option<int>, now: int)
    requires 0 <= now < DaySeconds
    ensures var r := RunMain(inbox, reachable, password, p, ScheduleAt(None, duration), now);
            var c := Connect(Fresh(inbox), reachable, password, p);
            r.ready ==> r.link.trace == c.link.trace + [Closed]
  {
  }

  /**
    A `start` session whose handshake succeeds and whose server then answers with any
    successful reply (whatever its `op` and ids): `main` does not raise, and exactly the
    Identify and the StartStream request were sent.
   */
  lemma StartSession(inbox: seq<Frame>, reachable: bool, password: Option<string>, p: Primitives,
                     now: int, x: Reply)
    requires 0 <= now < DaySeconds && x.status.result
    requires Connect(Fresh(inbox), reachable, password, p).ready
    requires |inbox| >= 3 && inbox[2] == Text(EncodeReply(x))
    ensures var r := RunMain(inbox, reachable, password, p, Start, now);
            && r.ready && !r.raised
            && SentMessages(r.link.trace) == [r.link.trace[1].msg, EncodeRequest(Request("StartStream", "start-stream"))]
  {
    WellFormedReply(StartStream, x);
    SessionAfterReady(inbox, reachable, password, p, Start, now);
    DirectSession(inbox, reachable, password, p, Start, now);
  }

  /** After a successful connect, a direct action's outcome decides whether `main` raises. */
  lemma SessionAfterReady(inbox: seq<Frame>, reachable: bool, password: Option<string>, p: Primitives,
                          a: Action, now: int)
    requires 0 <= now < DaySeconds && CommandOf(a).Some?
    ensures var c := Connect(Fresh(inbox), reachable, password, p);
            var r := RunMain(inbox, reachable, password, p, a, now);
            c.ready ==>
              && r.link.trace[1] == c.link.trace[1]
              && (r.raised <==> Issue(CommandOf(a).value, c.link).outcome.Raise?)
  {
  }

  /**
    A ready `schedule` session with a usable `--time`: after the handshake, an unparsable
    time only disconnects; a parsable one waits, starts the stream, perhaps waits again
    and stops it, and then disconnects. The replies it reads follow the handshake.
   */
  lemma ScheduledSession(inbox: seq<Frame>, reachable: bool, password: Option<string>, p: Primitives,
                         time: string, duration: Option<int>, now: int)
    requires 0 <= now < DaySeconds && time != ""
    ensures var r := RunMain(inbox, reachable, password, p, ScheduleAt(Some(time), duration), now);
            var c := Connect(Fresh(inbox), reachable, password, p);
            r.ready && ParseClock(time).None? ==> r.link.trace == c.link.trace + [Closed]
    ensures var r := RunMain(inbox, reachable, password, p, ScheduleAt(Some(time), duration), now);
            r.ready && ParseClock(time).Some? ==>
              var hm := ParseClock(time).value;
              && |inbox| >= 2
              && SentMessages(r.link.trace) == [r.link.trace[1].msg] + FiredRequests(Stops(duration, inbox[2..]))
              && Actions(r.link.trace) == [r.link.trace[1]] + ScheduledActions(now, hm.0, hm.1, duration, inbox[2..])
  {
    var c := Connect(Fresh(inbox), reachable, password, p);
    var r := RunMain(inbox, reachable, password, p, ScheduleAt(Some(time), duration), now);
    if c.ready {
      HandshakeSends(c.link.trace);
      assert r.link.trace[1] == c.link.trace[1];
    }
  }
}

=== FILE: transport.dfy ===
/**
  The controller's websocket, abstracted to a scripted conversation: the frames the
  server will deliver, in order, and a trace of everything the controller did on the
  socket (sends, receives, sleeps, close).
 */
module Transport {
  import opened Json

  /** One received websocket message: JSON text, or text `json.loads` rejects. */
  datatype Frame = Text(value: Json) | Garbled

  datatype Event =
    | Sent(msg: Json)
    | Received(frame: Frame)
    | Slept(seconds: int)
    | Closed

  /** `self.websocket`: never opened (None), open, or closed by `disconnect`. */
  datatype Socket = NoSocket | Live | Shut

  /**
    The controller's connection state together with the rest of the server's script
    (`inbox`) and the trace so far. An empty inbox stands for a peer that has closed
    the connection: receiving from it raises.
   */
  datatype Link = Link(socket: Socket, inbox: seq<Frame>, trace: seq<Event>)

  /** The link before `connect`: no socket, nothing done yet. */
  function Fresh(inbox: seq<Frame>): Link {
    Link(NoSocket, inbox, [])
  }

  /** `l2` is `l1` after appending `events` to the trace and consuming `n` frames. */
  ghost predicate Step(l1: Link, l2: Link, events: seq<Event>, n: nat) {
    && n <= |l1.inbox|
    && l2.inbox == l1.inbox[n..]
    && l2.trace == l1.trace + events
  }

  /** `l2`'s trace continues `l1`'s. */
  predicate Extends(l1: Link, l2: Link) {
    l1.trace <= l2.trace
  }

  lemma ExtendsTransitive(l1: Link, l2: Link, l3: Link)
    requires Extends(l1, l2) && Extends(l2, l3)
    ensures Extends(l1, l3)
  {
  }

  /**
    Regrouping a concatenation. Dafny knows this, but stating it at the right point
    keeps the proofs of the scheduler's ordered traces small.
   */
  lemma AppendAssoc<T>(a: seq<T>, b: seq<T>, c: seq<T>)
    ensures (a + b) + c == a + (b + c)
  {
  }

  /** Three singletons joined from the right form the three-element sequence. */
  lemma JoinSingletons<T>(x: T, y: T, z: T)
    ensures [x] + ([y] + [z]) == [x, y, z]
  {
  }

  /** The messages sent in a trace, in order. */
  function SentMessages(trace: seq<Event>): seq<Json>
    decreases |trace|
  {
    if trace == [] then []
    else (if trace[0].Sent? then [trace[0].msg] else []) + SentMessages(trace[1..])
  }

  /** The sends and waits of a trace, in the order they happened; receptions and the close are dropped. */
  function Actions(trace: seq<Event>): seq<Event>
    decreases |trace|
  {
    if trace == [] then []
    else (if trace[0].Sent? || trace[0].Slept? then [trace[0]] else []) + Actions(trace[1..])
  }

  lemma {:induction false} SentMessagesAppend(a: seq<Event>, b: seq<Event>)
    ensures SentMessages(a + b) == SentMessages(a) + SentMessages(b)
    decreases |a|
  {
    if a == [] {
      assert a + b == b;
    } else {
      assert (a + b)[0] == a[0] && (a + b)[1..] == a[1..] + b;
      SentMessagesAppend(a[1..], b);
      var head := if a[0].Sent? then [a[0].msg] else [];
      assert SentMessages(a + b) == head + (SentMessages(a[1..]) + SentMessages(b));
      assert head + (SentMessages(a[1..]) + SentMessages(b)) == (head + SentMessages(a[1..])) + SentMessages(b);
    }
  }

  lemma {:induction false} ActionsAppend(a: seq<Event>, b: seq<Event>)
    ensures Actions(a + b) == Actions(a) + Actions(b)
    decreases |a|
  {
    if a == [] {
      assert a + b == b;
    } else {
      assert (a + b)[0] == a[0] && (a + b)[1..] == a[1..] + b;
      ActionsAppend(a[1..], b);
      var head := if a[0].Sent? || a[0].Slept? then [a[0]] else [];
      assert Actions(a + b) == head + (Actions(a[1..]) + Actions(b));
      assert head + (Actions(a[1..]) + Actions(b)) == (head + Actions(a[1..])) + Actions(b);
    }
  }

  /** `websocket.send(msg)` on the open socket; it is always delivered. */
  function Send(l: Link, msg: Json): (l2: Link)
    requires l.socket == Live
    ensures l2.socket == Live && Step(l, l2, [Sent(msg)], 0)
    ensures SentMessages(l2.trace) == SentMessages(l.trace) + [msg]
    ensures Actions(l2.trace) == Actions(l.trace) + [Sent(msg)]
  {
    SentMessagesAppend(l.trace, [Sent(msg)]);
    ActionsAppend(l.trace, [Sent(msg)]);
    l.(trace := l.trace + [Sent(msg)])
  }

  /**
    `json.loads(await websocket.recv())` on the open socket: consumes the next frame, or
    raises if the peer has closed (empty inbox) or the frame is not JSON.
   */
  function Recv(l: Link): (r: (Eval<Json>, Link))
    requires l.socket == Live
    ensures r.1.socket == Live
    ensures l.inbox == [] ==> r.0 == Raise && r.1 == l
    ensures l.inbox != [] ==> Step(l, r.1, [Received(l.inbox[0])], 1)
    ensures r.0.Ok? <==> l.inbox != [] && l.inbox[0].Text?
    ensures r.0.Ok? ==> r.0.value == l.inbox[0].value
    ensures SentMessages(r.1.trace) == SentMessages(l.trace)
    ensures Actions(r.1.trace) == Actions(l.trace)
  {
    if l.inbox == [] then (Raise, l)
    else
      SentMessagesAppend(l.trace, [Received(l.inbox[0])]);
      ActionsAppend(l.trace, [Received(l.inbox[0])]);
      var l2 := l.(inbox := l.inbox[1..], trace := l.trace + [Received(l.inbox[0])]);
      match l.inbox[0]
      case Garbled => (Raise, l2)
      case Text(v) => (Ok(v), l2)
  }

  /** `asyncio.sleep(seconds)`: only recorded. */
  function Sleep(l: Link, seconds: int): (l2: Link)
    ensures l2.socket == l.socket && Step(l, l2, [Slept(seconds)], 0)
    ensures SentMessages(l2.trace) == SentMessages(l.trace)
    ensures Actions(l2.trace) == Actions(l.trace) + [Slept(seconds)]
  {
    SentMessagesAppend(l.trace, [Slept(seconds)]);
    ActionsAppend(l.trace, [Slept(seconds)]);
    l.(trace := l.trace + [Slept(seconds)])
  }

  /**
    `disconnect`: closes the socket when one was opened. Closing an already closed
    websocket does nothing on the wire, so only the first close is recorded.
   */
  function Disconnect(l: Link): (l2: Link)
    ensures l.socket == NoSocket ==> l2 == l
    ensures l.socket == Live ==> l2.socket == Shut && Step(l, l2, [Closed], 0)
    ensures l.socket == Shut ==> l2 == l
    ensures SentMessages(l2.trace) == SentMessages(l.trace) && Actions(l2.trace) == Actions(l.trace)
  {
    if l.socket == Live then
      SentMessagesAppend(l.trace, [Closed]);
      ActionsAppend(l.trace, [Closed]);
      l.(socket := Shut, trace := l.trace + [Closed])
    else l
  }

  /** `disconnect` is idempotent: a second call changes nothing. */
  lemma DisconnectIdempotent(l: Link)
    ensures Disconnect(Disconnect(l)) == Disconnect(l)
  {
  }
}
